=== FILE: README.md ===
# One-shot plan handler, modelled in Dafny

The service has a single endpoint, `POST /one-shot-plan`. It takes a JSON object
and reads four free-text fields: `request`, `scenario`, `goal` and `problem`.
It turns each field into text with `str()`, joins the four texts with single
spaces and lower-cases the result. If that description contains both `"ucla"`
and `"orientation"`, the handler returns a fixed UCLA post-arrival orientation
sheet. Only the sheet's greeting summary varies: it uses `preferred_name`
(default `"Bruin"`) and `term` (default `"upcoming term"`). Otherwise it
returns a placeholder that echoes `request`, or else `scenario`, or else `""`.

The model is three modules, all pure functions and lemmas, like the handler:

- `Text` (`text.dfy`) covers the parts of Python's `str` that the handler uses.
  These are ASCII `lower()`, substring search (`in`), `sep.join(parts)` and the
  decimal text of an integer. It also proves that a pattern without the
  separator can never run across a join.
- `Json` (`json.dfy`) covers the parsed payload. It holds the payload as
  `map<string, Value>`, where `Value` is null, boolean, integer or string. It
  also models `payload.get`, Python truthiness, the `or` operator and `str()`.
- `App` (`app.dfy`) holds the two plan documents, their builders, the dispatcher
  `OneShotPlan` and the properties of the dispatch.

Three details of the code are easy to misread; the model follows the code:

- The placeholder's `echo` is the first *truthy* value of `request` or
  `scenario`. So `0` and `false` are skipped as well as `""`.
  The echo is the JSON value itself, not its text.
- An absent description field contributes `""`, like a field holding `""`;
  a `null` field does not: it contributes the text `"None"`.
- The greeting uses `preferred_name` only when it is truthy. The name can be a
  non-string, such as an integer, which is then formatted as text.

## Model

| member | source | states |
|---|---|---|
| `App.OneShotPlan` | app.py:158-169 | Both plans carry mode `ask-once-no-chat-demo`. The orientation plan is returned exactly when the lower-cased, space-joined description contains both `ucla` and `orientation`. It is then `create_orientation_plan(payload)`; otherwise the result is `create_default_plan(payload)`. |
| `App.Description` | app.py:160-162 | Lower-casing the joined text equals joining the four lower-cased field texts with single spaces, and the description holds no upper-case ASCII letter. |
| `App.FieldTexts` | app.py:161 | The generator yields one text per key, in the order `request`, `scenario`, `goal`, `problem`, each being that field's `str(payload.get(key, ""))`. |
| `Json.FieldText` | app.py:161 | `str(payload.get(key, ""))` is `""` for an absent key and `str()` of the stored value otherwise. It is empty exactly when the key is absent or holds the empty string, so a present `null` is not empty. |
| `Text.Join` | app.py:160 | `sep.join(parts)` is empty for no parts; otherwise its length is the parts' total length plus one separator between each neighbouring pair, and it starts with the first part. |
| `Text.Contains` | app.py:164 | Python's `pat in s`: the empty pattern is in every string, and a pattern that is found is no longer than the string. `Text.ContainsJoin` relates it to the join. |
| `App.BranchByField` | app.py:160-167 | The branch, stated field by field. The orientation plan is chosen exactly when some field mentions `ucla` and some field, possibly another one, mentions `orientation`. Each field is lower-cased on its own. Neither the order of the keywords nor the join matters. |
| `App.DescriptionMentions` | app.py:160-164 | A keyword without spaces occurs in the joined, lower-cased description exactly when it occurs in one field's own lower-cased text. No match spans two fields. |
| `Text.ContainsJoin` | app.py:160-161 | A non-empty pattern that does not hold the one-character separator occurs in `sep.join(parts)` exactly when it occurs in one of the parts. |
| `Text.ContainsAroundSeparator` | app.py:160-161 | A pattern without the character `c` is found in `a + c + b` exactly when it is found in `a` or in `b`. |
| `Text.LowerJoin` | app.py:160-162 | Lower-casing the joined text gives the same result as joining the lower-cased parts. |
| `Text.Lower` | app.py:162 | `lower()` on ASCII letters keeps the length. It maps each character through the ASCII case map and leaves no upper-case letter. |
| `App.BranchIgnoresCase` | app.py:162-164 | Two payloads whose four description texts agree letter for letter up to ASCII case get the same branch. |
| `App.UpperCasingFieldKeepsBranch` | app.py:162-164 | Upper-casing the string in any one field never changes the branch. |
| `App.EmptyDescription` | app.py:159-162 | An empty payload joins to exactly three spaces, which do not contain `ucla`. |
| `App.EmptyPayload` | app.py:141-167 | An empty payload gets the placeholder, and its `echo` is `""`. |
| `App.NonStringFieldsSelectDefault` | app.py:160-167 | If every description field is absent or holds null, a boolean or an integer, the placeholder is returned. Among null, booleans, integers and strings, only strings can carry the keywords. |
| `Json.NonStringTextLacksWord` | app.py:161 | The text of `None`, `True`, `False` or an integer holds no lower-case letter outside `none`, `true` and `false`. So it cannot contain a word that has such a letter. |
| `App.TitleIdentifiesBranch` | app.py:95-96 | Both plans carry the same mode. The orientation title (line 96) and the placeholder title (line 146) differ, so the title alone tells which branch was taken. |
| `App.ActionSheet` | app.py:26-77 | The action sheet has exactly five entries, and each `estimated_time_minutes` is positive. |
| `App.CreateOrientationPlan` | app.py:21-138 | The builder returns an orientation document with the shared mode, the orientation title and a five-entry action sheet whose time estimates are all positive. |
| `App.PreferredName` | app.py:23 | The greeted name is `str(preferred_name)` when that value is truthy and `Bruin` when it is absent or falsy. |
| `App.Term` | app.py:24 | The term text is `str(term)` when that value is truthy and `upcoming term` when it is absent or falsy. |
| `App.Summary` | app.py:97-99 | The f-string summary starts with `"Hi " + name + ", "` and contains the term text, for every name and term. |
| `App.OrientationSummary` | app.py:23-24 | The summary greets `str(preferred_name)` when that value is truthy and `Bruin` when it is absent or falsy. It names `str(term)` when that value is truthy and `upcoming term` otherwise. |
| `App.OrientationPlanVariesOnlyInSummary` | app.py:94-138 | Every field of the orientation plan except `summary` is the same for all payloads. The whole plan depends only on `preferred_name` and `term`. |
| `App.CreateDefaultPlan` | app.py:141-153 | The placeholder has the shared mode, the placeholder title and the fixed `summary` and `next_step` texts of lines 147-152 for every payload. Its `echo` is `request` if that value is truthy, else `scenario` if truthy, else `""`. |
| `App.DefaultPlanIgnoresGoalAndProblem` | app.py:143-151 | Two payloads that agree on `request` and `scenario` get the same placeholder. `goal`, `problem` and every other key never affect it. |
| `Json.Get` | app.py:23-24 | `payload.get(key)` is the stored value when the key is present and `None` otherwise. |
| `Json.Truthy` | app.py:23-24 | Python truthiness: the falsy values are exactly `None`, `False`, `0` and `""`. |
| `Json.Or` | app.py:143 | Python's `a or b` is `a` when `a` is truthy and `b` otherwise; the result is truthy exactly when one of the operands is. |
| `Json.GetOr` | app.py:23-24 | `payload.get(key) or default`, with a truthy default, is the stored value when that value is truthy. Otherwise it is the default. The result is never falsy. |
| `Json.ToText` | app.py:161 | `str()` returns a string unchanged. It gives every other value a non-empty text without spaces. |
| `Text.IntToDecimal` | app.py:161 | `str()` of an integer is non-empty, holds only digits and `-`, and starts with `-` exactly when the integer is negative. |
| `Text.IntDecimalRoundTrip` | app.py:161 | `str()` of an integer is an optional minus sign and decimal digits, and reading that text back gives the same integer. |
| `Text.DecimalRoundTrip` | app.py:161 | Reading back the decimal digits of a natural number gives the number. |
| `Text.NatToDecimal` | app.py:161 | The decimal text of a natural number is non-empty, holds only digits and has no leading zero. |
| `App.AnaFall2024` | app.py:158-169 | A payload with `preferred_name` "Ana", `term` "Fall 2024" and `scenario` "ucla orientation tasks" gets the orientation plan, whatever its other fields hold. Its summary starts with "Hi Ana, " and contains "Fall 2024". |
| `App.TokyoTrip` | app.py:158-169 | A payload whose `request` is "help me plan a Tokyo trip" and which has no other description field gets the placeholder. The placeholder echoes that request. |

## Left out

- Flask plumbing is not modelled: routing, `request.get_json(force=True, silent=True) or {}`, `jsonify` and `app.run`. The model starts from an already parsed JSON object.
- A body that parses to something other than an object is not modelled. Any truthy body that is not an object (an array, a number, a string or `true`) would make `payload.get` fail. A falsy one becomes `{}`.
- Payload values that are floats, arrays or nested objects are not modelled. For these, `str()` produces Python's `repr` syntax. `Value` covers null, booleans, integers and strings only. Such values can select the orientation plan: `{"request": ["UCLA orientation"]}` has the description `['ucla orientation']` followed by three spaces, which holds both keywords. `App.NonStringFieldsSelectDefault` says nothing about them.
- `Text.Lower` and `Text.Upper` cover ASCII letters only. Python's full Unicode `str.lower()` also maps non-ASCII letters, and a few of them to more than one character.
- The prose, URLs and status labels of both documents are copied as constants. Nothing is proved about their wording. The summary keeps the three characters that stand for a mis-decoded dash on line 99, as written.
- Key order and serialisation of the JSON response are not modelled. Each document is a Dafny datatype, with one field per key.
- The worked payloads (`App.AnaFall2024`, `App.TokyoTrip`) are stated for every payload that has the named fields, not for one literal map.

=== FILE: app.dfy ===
/** The `/one-shot-plan` handler: it reads four free-text fields of the payload,
    decides by two keywords which canned plan applies, and builds either the
    UCLA post-arrival orientation sheet or the generic placeholder. */
module App {
  import opened Text
  import opened Json

  // ---------------------------------------------------------------------------
  // Constants of the handler
  // ---------------------------------------------------------------------------

  const Mode: string := "ask-once-no-chat-demo"
  const OrientationTitle: string := "UCLA Post-Arrival Orientation Command Sheet"
  const DefaultTitle: string := "One-shot automation placeholder"

  /** The two trigger words; both must occur in the lower-cased description. */
  const UniversityKeyword: string := "ucla"
  const OrientationKeyword: string := "orientation"

  /** The payload keys whose texts make up the description, in join order. */
  const DescriptionKeys: seq<string> := ["request", "scenario", "goal", "problem"]

  const DefaultName: string := "Bruin"
  const DefaultTerm: string := "upcoming term"

  // ---------------------------------------------------------------------------
  // The plan documents
  // ---------------------------------------------------------------------------

  datatype Navigation = Navigation(simulate: string, status: string)

  datatype ActionItem = ActionItem(
    task: string,
    why: string,
    autoNavigation: Navigation,
    needsFromYou: seq<string>,
    estimatedTimeMinutes: int)

  datatype Reference = Reference(title: string, url: string)

  datatype ConfirmItem = ConfirmItem(item: string, reason: string)

  datatype Automation = Automation(id: string, description: string, status: string)

  datatype Negotiation = Negotiation(counterparty: string, intent: string, status: string)

  /** The two response documents. Both carry `mode`, `title` and `summary`. */
  datatype Plan =
    | OrientationPlan(
        mode: string,
        title: string,
        summary: string,
        assumptions: seq<string>,
        informationToConfirm: seq<ConfirmItem>,
        actionSheet: seq<ActionItem>,
        automationsReady: seq<Automation>,
        agentToAgentNegotiations: seq<Negotiation>,
        confirmationPrompt: string,
        references: seq<Reference>)
    | DefaultPlan(
        mode: string,
        title: string,
        summary: string,
        echo: Value,
        nextStep: string)

  // ---------------------------------------------------------------------------
  // Orientation plan
  // ---------------------------------------------------------------------------

  const CheckInStep: ActionItem := ActionItem(
    "Submit Dashew Center online check-in",
    "Confirms visa compliance and activates your SEVIS record.",
    Navigation(
      "Open https://internationalcenter.ucla.edu/services/online-check-in and prefill UID",
      "ready_to_launch"),
    ["UCLA Logon ID", "I-94 arrival record PDF", "U.S. address"],
    10)

  const VisaUploadStep: ActionItem := ActionItem(
    "Upload visa documents to UCLA I-Portal",
    "Required within 10 days of arrival to avoid enrollment holds.",
    Navigation(
      "Navigate to https://iportal.sa.ucla.edu and stage document upload workflow",
      "awaiting_confirmation"),
    ["Passport ID page", "Signed Form I-20 or DS-2019"],
    8)

  const BillingStep: ActionItem := ActionItem(
    "Clear BruinBill balance",
    "Prevents late fees before classes begin.",
    Navigation("Open BruinBill summary and queue ACH payment", "requires_final_amount"),
    ["Payment method confirmation"],
    5)

  const SessionStep: ActionItem := ActionItem(
    "Reserve mandatory Dashew live session",
    "Completes post-arrival orientation checklist.",
    Navigation(
      "Book first available orientation session via Dashew Eventbrite",
      "ready_to_launch"),
    ["Preferred session date"],
    3)

  const ImmunizationStep: ActionItem := ActionItem(
    "Submit UCLA immunization & TB screening",
    "Removes Ashe Center health hold before week 3.",
    Navigation(
      "Open https://immunizationrequirement.ucla.edu and stage upload",
      "waiting_for_records"),
    ["Vaccine records", "TB screening lab results"],
    12)

  /** The five steps of the orientation sheet, each with a positive time estimate. */
  function ActionSheet(): (sheet: seq<ActionItem>)
    ensures |sheet| == 5
    ensures forall i :: 0 <= i < |sheet| ==> sheet[i].estimatedTimeMinutes > 0
  {
    [CheckInStep, VisaUploadStep, BillingStep, SessionStep, ImmunizationStep]
  }

  const References: seq<Reference> := [
    Reference("Dashew Center Post-Arrival Checklist", "https://internationalcenter.ucla.edu/post-arrival"),
    Reference("BruinBill Help Center", "https://www.finance.ucla.edu/student-finance/bruins-bill"),
    Reference("UCLA Immunization Requirement", "https://immunizationrequirement.ucla.edu")
  ]

  const Assumptions: seq<string> := [
    "You are a newly arrived international student who has already landed in Los Angeles.",
    "Your UCLA Logon ID has been activated.",
    "You can provide identity documents if prompted."
  ]

  const InformationToConfirm: seq<ConfirmItem> := [
    ConfirmItem("Arrival date", "Needed to verify SEVIS reporting window."),
    ConfirmItem("Preferred orientation session slot", "Allows auto-booking without further prompts.")
  ]

  const AutomationsReady: seq<Automation> := [
    Automation(
      "dashew_check_in",
      "Prefill Dashew Center check-in form up to the submission button.",
      "awaiting_single_tap_approval"),
    Automation(
      "bruinbill_balance_refresh",
      "Retrieve outstanding balance and draft ACH payment.",
      "awaiting_single_tap_approval")
  ]

  const Negotiations: seq<Negotiation> := [
    Negotiation(
      "Dashew Center virtual assistant",
      "Request earlier orientation slot if initial choice is full",
      "auto_escalate_if_needed")
  ]

  const ConfirmationPrompt: string :=
    "Ready for me to launch these steps and pause only when manual input is absolutely required?"

  /** The text between the term and the end of the summary. The source file
      holds a mis-decoded em dash here (three characters), kept as written. */
  const SummaryClosing: string :=
    ". Everything is consolidated into this one confirmation sheet\U{E2}\U{20AC}\U{201D}no back-and-forth chat needed."

  const SummaryMiddle: string := "I can finish the UCLA post-arrival orientation setup for the "

  /** `payload.get("preferred_name") or "Bruin"`, as text. */
  function PreferredName(p: Payload): (name: string)
    ensures Truthy(Get(p, "preferred_name")) ==> name == ToText(p["preferred_name"])
    ensures !Truthy(Get(p, "preferred_name")) ==> name == DefaultName
  {
    ToText(GetOr(p, "preferred_name", VStr(DefaultName)))
  }

  /** `payload.get("term") or "upcoming term"`, as text. */
  function Term(p: Payload): (term: string)
    ensures Truthy(Get(p, "term")) ==> term == ToText(p["term"])
    ensures !Truthy(Get(p, "term")) ==> term == DefaultTerm
  {
    ToText(GetOr(p, "term", VStr(DefaultTerm)))
  }

  /** The f-string summary: it opens with the greeting and names the term. */
  function Summary(name: string, term: string): (summary: string)
    ensures StartsWith(summary, "Hi " + name + ", ")
    ensures Contains(summary, term)
  {
    var greeting := "Hi " + name + ", ";
    var lead := greeting + SummaryMiddle;
    var summary := lead + term + SummaryClosing;
    assert summary[..|greeting|] == greeting;
    assert summary[|lead|..|lead| + |term|] == term;
    assert OccursAt(summary, term, |lead|);
    summary
  }

  /** `create_orientation_plan(payload)`. */
  function CreateOrientationPlan(p: Payload): (plan: Plan)
    ensures plan.OrientationPlan?
    ensures plan.mode == Mode && plan.title == OrientationTitle
    ensures |plan.actionSheet| == 5
    ensures forall i :: 0 <= i < |plan.actionSheet| ==> plan.actionSheet[i].estimatedTimeMinutes > 0
  {
    OrientationPlan(
      Mode,
      OrientationTitle,
      Summary(PreferredName(p), Term(p)),
      Assumptions,
      InformationToConfirm,
      ActionSheet(),
      AutomationsReady,
      Negotiations,
      ConfirmationPrompt,
      References)
  }

  // ---------------------------------------------------------------------------
  // Default plan
  // ---------------------------------------------------------------------------

  const DefaultSummary: string :=
    "Provide more detail about the process you want automated so I can compile a single confirmation sheet."

  const NextStep: string :=
    "Describe the target service (e.g., university task, travel booking, billing issue)."

  /** `create_default_plan(payload)`: the echo is
      `payload.get("request") or payload.get("scenario") or ""`. */
  function CreateDefaultPlan(p: Payload): (plan: Plan)
    ensures plan.DefaultPlan?
    ensures plan.mode == Mode && plan.title == DefaultTitle
    ensures plan.summary == DefaultSummary && plan.nextStep == NextStep
    ensures Truthy(Get(p, "request")) ==> plan.echo == p["request"]
    ensures !Truthy(Get(p, "request")) && Truthy(Get(p, "scenario")) ==> plan.echo == p["scenario"]
    ensures !Truthy(Get(p, "request")) && !Truthy(Get(p, "scenario")) ==> plan.echo == VStr("")
  {
    var echo := Or(Or(Get(p, "request"), Get(p, "scenario")), VStr(""));
    DefaultPlan(Mode, DefaultTitle, DefaultSummary, echo, NextStep)
  }

  // ---------------------------------------------------------------------------
  // Dispatcher
  // ---------------------------------------------------------------------------

  /** The texts of the description fields, in order; absent fields give `""`. */
  function FieldTexts(p: Payload): (texts: seq<string>)
    ensures |texts| == |DescriptionKeys|
    ensures forall i :: 0 <= i < |DescriptionKeys| ==> texts[i] == FieldText(p, DescriptionKeys[i])
  {
    seq(|DescriptionKeys|, i requires 0 <= i < |DescriptionKeys| => FieldText(p, DescriptionKeys[i]))
  }

  /** `" ".join(str(payload.get(key, "")) for key in keys).lower()`. */
  function Description(p: Payload): (description: string)
    ensures description == Join(" ", LowerAll(FieldTexts(p)))
    ensures forall i :: 0 <= i < |description| ==> !IsUpper(description[i])
  {
    LowerJoin(" ", FieldTexts(p));
    assert Lower(" ") == " ";
    Lower(Join(" ", FieldTexts(p)))
  }

  /** `one_shot_plan()` once the body is parsed: the orientation plan exactly
      when the description holds both keywords, the default plan otherwise. */
  function OneShotPlan(p: Payload): (plan: Plan)
    ensures plan.mode == Mode
    ensures plan.OrientationPlan? <==>
              Contains(Description(p), UniversityKeyword) && Contains(Description(p), OrientationKeyword)
    ensures plan.OrientationPlan? ==> plan == CreateOrientationPlan(p)
    ensures plan.DefaultPlan? ==> plan == CreateDefaultPlan(p)
  {
    var description := Description(p);
    if Contains(description, UniversityKeyword) && Contains(description, OrientationKeyword) then
      CreateOrientationPlan(p)
    else
      CreateDefaultPlan(p)
  }

  // ---------------------------------------------------------------------------
  // Properties of the dispatcher
  // ---------------------------------------------------------------------------

  /** Some description field, lower-cased on its own, holds `word`. */
  predicate FieldMentions(p: Payload, word: string) {
    exists i :: 0 <= i < |DescriptionKeys| && Contains(Lower(FieldText(p, DescriptionKeys[i])), word)
  }

  lemma FieldMentionsAt(p: Payload, i: int, word: string)
    requires 0 <= i < |DescriptionKeys| && Contains(Lower(FieldText(p, DescriptionKeys[i])), word)
    ensures FieldMentions(p, word)
  {
  }

  /** A keyword in the joined description always lies inside one field. */
  lemma DescriptionMentions(p: Payload, word: string)
    requires word != [] && ' ' !in word
    ensures Contains(Description(p), word) <==> FieldMentions(p, word)
  {
    var texts := FieldTexts(p);
    ContainsJoin(" ", LowerAll(texts), word);
    if SomePartContains(LowerAll(texts), word) {
      var i :| 0 <= i < |LowerAll(texts)| && Contains(LowerAll(texts)[i], word);
      assert Contains(Lower(FieldText(p, DescriptionKeys[i])), word);
    }
    if FieldMentions(p, word) {
      var i :| 0 <= i < |DescriptionKeys| && Contains(Lower(FieldText(p, DescriptionKeys[i])), word);
      assert Contains(LowerAll(texts)[i], word);
    }
  }

  /** The branch, stated field by field: the orientation plan is chosen exactly
      when one of the four fields mentions "ucla" and one (possibly another)
      mentions "orientation", in any order and any case. */
  lemma BranchByField(p: Payload)
    ensures OneShotPlan(p).OrientationPlan? <==>
              FieldMentions(p, UniversityKeyword) && FieldMentions(p, OrientationKeyword)
  {
    DescriptionMentions(p, UniversityKeyword);
    DescriptionMentions(p, OrientationKeyword);
  }

  /** Changing the case of letters in the description fields never changes
      the branch taken. */
  lemma BranchIgnoresCase(p: Payload, q: Payload)
    requires forall i :: 0 <= i < |DescriptionKeys| ==>
               SameUpToCase(FieldText(p, DescriptionKeys[i]), FieldText(q, DescriptionKeys[i]))
    ensures OneShotPlan(p).OrientationPlan? == OneShotPlan(q).OrientationPlan?
  {
    LowerJoin(" ", FieldTexts(p));
    LowerJoin(" ", FieldTexts(q));
    forall i | 0 <= i < |DescriptionKeys|
      ensures LowerAll(FieldTexts(p))[i] == LowerAll(FieldTexts(q))[i]
    {
      LowerIgnoresCase(FieldText(p, DescriptionKeys[i]), FieldText(q, DescriptionKeys[i]));
    }
    assert LowerAll(FieldTexts(p)) == LowerAll(FieldTexts(q));
  }

  /** In particular, upper-casing one field's string leaves the branch alone. */
  lemma UpperCasingFieldKeepsBranch(p: Payload, key: string, s: string)
    ensures OneShotPlan(p[key := VStr(s)]).OrientationPlan? ==
            OneShotPlan(p[key := VStr(Upper(s))]).OrientationPlan?
  {
    var p1, p2 := p[key := VStr(s)], p[key := VStr(Upper(s))];
    forall i | 0 <= i < |DescriptionKeys|
      ensures SameUpToCase(FieldText(p1, DescriptionKeys[i]), FieldText(p2, DescriptionKeys[i]))
    {
      UpperIsSameUpToCase(s);
    }
    BranchIgnoresCase(p1, p2);
  }

  /** A field that is absent or holds `null`, a boolean or an integer never
      mentions a word with a letter outside `none`, `true` and `false`. */
  lemma NonStringFieldLacksWord(p: Payload, key: string, word: string, k: int)
    requires key in p ==> !p[key].VStr?
    requires 0 <= k < |word| && IsLower(word[k]) && word[k] !in "nonetruefalse"
    ensures !Contains(Lower(FieldText(p, key)), word)
  {
    if key in p {
      NonStringTextLacksWord(p[key], word, k);
    }
  }

  /** Fields holding `null`, booleans or integers can never trigger the
      orientation plan: among null, booleans, integers and strings, only
      strings can carry the keywords. */
  lemma NonStringFieldsSelectDefault(p: Payload)
    requires forall i :: 0 <= i < |DescriptionKeys| && DescriptionKeys[i] in p ==>
               !p[DescriptionKeys[i]].VStr?
    ensures OneShotPlan(p).DefaultPlan?
  {
    forall i | 0 <= i < |DescriptionKeys|
      ensures !Contains(Lower(FieldText(p, DescriptionKeys[i])), UniversityKeyword)
    {
      NonStringFieldLacksWord(p, DescriptionKeys[i], UniversityKeyword, 1);
    }
    BranchByField(p);
  }

  /** An empty body joins to three spaces, which hold neither keyword. */
  lemma EmptyDescription()
    ensures Description(map[]) == "   "
    ensures !Contains(Description(map[]), UniversityKeyword)
  {
    var texts := FieldTexts(map[]);
    assert texts == ["", "", "", ""];
    assert Join(" ", texts) == "   ";
    assert Lower("   ") == "   ";
  }

  /** So an empty body yields the placeholder with an empty echo. */
  lemma EmptyPayload()
    ensures OneShotPlan(map[]) == CreateDefaultPlan(map[])
    ensures OneShotPlan(map[]).echo == VStr("")
  {
    EmptyDescription();
  }

  /** Both documents carry the same mode, and the title alone tells them apart. */
  lemma TitleIdentifiesBranch(p: Payload)
    ensures OneShotPlan(p).mode == Mode
    ensures OneShotPlan(p).title == OrientationTitle <==> OneShotPlan(p).OrientationPlan?
    ensures OneShotPlan(p).title == DefaultTitle <==> OneShotPlan(p).DefaultPlan?
  {
    assert OrientationTitle[0] != DefaultTitle[0];
  }

  // ---------------------------------------------------------------------------
  // Properties of the two documents
  // ---------------------------------------------------------------------------

  /** The summary greets `preferred_name`, or "Bruin" when it is absent or
      falsy, and names `term`, or "upcoming term" likewise. */
  lemma OrientationSummary(p: Payload)
    ensures var name := if Truthy(Get(p, "preferred_name")) then ToText(p["preferred_name"]) else DefaultName;
            StartsWith(CreateOrientationPlan(p).summary, "Hi " + name + ", ")
    ensures var term := if Truthy(Get(p, "term")) then ToText(p["term"]) else DefaultTerm;
            Contains(CreateOrientationPlan(p).summary, term)
  {
  }

  /** Everything in the orientation plan except the summary is the same for
      every payload, and the summary depends only on `preferred_name` and `term`. */
  lemma OrientationPlanVariesOnlyInSummary(p: Payload, q: Payload)
    ensures var a, b := CreateOrientationPlan(p), CreateOrientationPlan(q);
            && a.mode == b.mode && a.title == b.title
            && a.assumptions == b.assumptions
            && a.informationToConfirm == b.informationToConfirm
            && a.actionSheet == b.actionSheet
            && a.automationsReady == b.automationsReady
            && a.agentToAgentNegotiations == b.agentToAgentNegotiations
            && a.confirmationPrompt == b.confirmationPrompt
            && a.references == b.references
    ensures Get(p, "preferred_name") == Get(q, "preferred_name") && Get(p, "term") == Get(q, "term") ==>
              CreateOrientationPlan(p) == CreateOrientationPlan(q)
  {
  }

  /** `goal` and `problem` never reach the placeholder: only `request` and
      `scenario` decide its echo. */
  lemma DefaultPlanIgnoresGoalAndProblem(p: Payload, q: Payload)
    requires Get(p, "request") == Get(q, "request") && Get(p, "scenario") == Get(q, "scenario")
    ensures CreateDefaultPlan(p) == CreateDefaultPlan(q)
  {
  }

  // ---------------------------------------------------------------------------
  // Worked payloads
  // ---------------------------------------------------------------------------

  /** Both keywords are written in lower case. */
  lemma KeywordsAreLowerCase()
    ensures forall i :: 0 <= i < |UniversityKeyword| ==> !IsUpper(UniversityKeyword[i])
    ensures forall i :: 0 <= i < |OrientationKeyword| ==> !IsUpper(OrientationKeyword[i])
  {
  }

  /** A field whose own text holds a keyword, in any case, mentions it. */
  lemma FieldHoldsKeyword(p: Payload, i: int, word: string)
    requires word == UniversityKeyword || word == OrientationKeyword
    requires 0 <= i < |DescriptionKeys| && Contains(FieldText(p, DescriptionKeys[i]), word)
    ensures FieldMentions(p, word)
  {
    KeywordsAreLowerCase();
    LowerOfLowerCase(word);
    ContainsLower(FieldText(p, DescriptionKeys[i]), word);
    FieldMentionsAt(p, i, word);
  }

  /** A field whose text lacks a letter of `word` in both cases never mentions `word`. */
  lemma FieldLacksLetter(p: Payload, key: string, word: string, k: int)
    requires 0 <= k < |word| && IsLower(word[k])
    requires word[k] !in FieldText(p, key) && UpperChar(word[k]) !in FieldText(p, key)
    ensures !Contains(Lower(FieldText(p, key)), word)
  {
    LowerLacksLetter(FieldText(p, key), word[k]);
    MissingCharExcludes(Lower(FieldText(p, key)), word, k);
  }

  /** A payload such as `{"preferred_name": "Ana", "term": "Fall 2024",
      "scenario": "ucla orientation tasks"}` gets the orientation plan,
      greeting Ana and naming Fall 2024, whatever its other fields hold. */
  lemma AnaFall2024(p: Payload)
    requires Get(p, "preferred_name") == VStr("Ana") && Get(p, "term") == VStr("Fall 2024")
    requires Get(p, "scenario") == VStr(UniversityKeyword + " " + OrientationKeyword + " tasks")
    ensures OneShotPlan(p).OrientationPlan?
    ensures StartsWith(OneShotPlan(p).summary, "Hi " + "Ana" + ", ")
    ensures Contains(OneShotPlan(p).summary, "Fall 2024")
  {
    var scenario := FieldText(p, DescriptionKeys[1]);
    var rest := " " + OrientationKeyword + " tasks";
    assert scenario == UniversityKeyword + rest;
    assert scenario[..|UniversityKeyword|] == UniversityKeyword;
    ContainsAt(scenario, UniversityKeyword, 0);
    assert scenario == (UniversityKeyword + " ") + OrientationKeyword + " tasks";
    assert scenario[5..5 + |OrientationKeyword|] == OrientationKeyword;
    ContainsAt(scenario, OrientationKeyword, 5);
    FieldHoldsKeyword(p, 1, UniversityKeyword);
    FieldHoldsKeyword(p, 1, OrientationKeyword);
    BranchByField(p);
  }

  lemma TokyoRequestLacksU(s: string)
    requires s == "help me plan a Tokyo trip"
    ensures 'u' !in s && 'U' !in s
  {
  }

  /** No field of a payload such as `{"request": "help me plan a Tokyo trip"}`
      mentions "ucla": the request has no letter u in either case. */
  lemma TokyoTripLacksUniversity(p: Payload)
    requires Get(p, "request") == VStr("help me plan a Tokyo trip")
    requires "scenario" !in p && "goal" !in p && "problem" !in p
    ensures !FieldMentions(p, UniversityKeyword)
  {
    TokyoRequestLacksU(FieldText(p, DescriptionKeys[0]));
    forall i | 0 <= i < |DescriptionKeys|
      ensures !Contains(Lower(FieldText(p, DescriptionKeys[i])), UniversityKeyword)
    {
      FieldLacksLetter(p, DescriptionKeys[i], UniversityKeyword, 0);
    }
  }

  /** Such a payload gets the placeholder, echoing the request. */
  lemma TokyoTrip(p: Payload)
    requires Get(p, "request") == VStr("help me plan a Tokyo trip")
    requires "scenario" !in p && "goal" !in p && "problem" !in p
    ensures OneShotPlan(p) == CreateDefaultPlan(p)
    ensures OneShotPlan(p).echo == VStr("help me plan a Tokyo trip")
  {
    TokyoTripLacksUniversity(p);
    BranchByField(p);
  }
}

=== FILE: json.dfy ===
/** The request payload as the handler sees it once Flask has parsed the body:
    a JSON object from string keys to values, read with `payload.get`, Python
    truthiness, the `or` operator and `str()`. */
module Json {
  import opened Text

  /** The JSON values a payload field can hold (floats, arrays and nested
      objects are not part of this model). */
  datatype Value = VNull | VBool(b: bool) | VInt(i: int) | VStr(s: string)

  type Payload = map<string, Value>

  /** `payload.get(key)`: the stored value, or `None` when the key is absent. */
  function Get(p: Payload, key: string): (v: Value)
    ensures key !in p ==> v == VNull
    ensures key in p ==> v == p[key]
  {
    if key in p then p[key] else VNull
  }

  /** Python's `bool(v)`: `None`, `False`, `0` and `""` are falsy. */
  predicate Truthy(v: Value)
    ensures Truthy(v) <==> v !in {VNull, VBool(false), VInt(0), VStr([])}
  {
    match v
    case VNull => false
    case VBool(b) => b
    case VInt(i) => i != 0
    case VStr(s) => s != []
  }

  /** Python's `a or b`: `a` itself when it is truthy, otherwise `b`. */
  function Or(a: Value, b: Value): (r: Value)
    ensures Truthy(r) <==> Truthy(a) || Truthy(b)
    ensures Truthy(a) ==> r == a
    ensures !Truthy(a) ==> r == b
  {
    if Truthy(a) then a else b
  }

  /** Python's `str(v)`. */
  function ToText(v: Value): (r: string)
    ensures v.VStr? ==> r == v.s
    ensures !v.VStr? ==> r != [] && ' ' !in r
  {
    match v
    case VNull => "None"
    case VBool(b) => if b then "True" else "False"
    case VInt(i) => IntToDecimal(i)
    case VStr(s) => s
  }

  /** `str(payload.get(key, ""))`: the text of a field, `""` when it is absent. */
  function FieldText(p: Payload, key: string): (r: string)
    ensures key !in p ==> r == []
    ensures key in p ==> r == ToText(p[key])
    ensures r == [] <==> key !in p || p[key] == VStr([])
  {
    if key in p then ToText(p[key]) else ""
  }

  /** `payload.get(key) or default`, for a default that is itself truthy: the
      stored value when it is truthy, the default otherwise, and never falsy. */
  function GetOr(p: Payload, key: string, default: Value): (v: Value)
    requires Truthy(default)
    ensures Truthy(v)
    ensures key in p && Truthy(p[key]) ==> v == p[key]
    ensures !(key in p && Truthy(p[key])) ==> v == default
  {
    Or(Get(p, key), default)
  }

  /** The text of a value that is not a string never holds a lower-case
      letter outside `none`, `true` and `false`: `None`, `True`, `False` and
      integer digits are all the text there is. */
  lemma NonStringTextLacksWord(v: Value, word: string, k: int)
    requires !v.VStr?
    requires 0 <= k < |word| && IsLower(word[k]) && word[k] !in "nonetruefalse"
    ensures !Contains(Lower(ToText(v)), word)
  {
    var t := Lower(ToText(v));
    if Contains(t, word) {
      ContainsEveryChar(t, word, k);
      assert false;
    }
  }
}

=== FILE: text.dfy ===
/** The pieces of Python's `str` that the plan handler relies on: ASCII case
    mapping (`str.lower`), substring search (`in`), `sep.join(parts)` and the
    decimal text of an integer (`str(int)`). */
module Text {

  // ---------------------------------------------------------------------------
  // ASCII case mapping
  // ---------------------------------------------------------------------------

  predicate IsUpper(c: char) { 'A' <= c <= 'Z' }

  predicate IsLower(c: char) { 'a' <= c <= 'z' }

  function LowerChar(c: char): char {
    if IsUpper(c) then (c as int - 'A' as int + 'a' as int) as char else c
  }

  function UpperChar(c: char): char {
    if IsLower(c) then (c as int - 'a' as int + 'A' as int) as char else c
  }

  /** `s.lower()` on ASCII letters: every upper-case letter is mapped to its
      lower-case partner and nothing else moves. */
  function Lower(s: string): (r: string)
    ensures |r| == |s|
    ensures forall i :: 0 <= i < |s| ==> r[i] == LowerChar(s[i])
    ensures forall i :: 0 <= i < |r| ==> !IsUpper(r[i])
  {
    if s == [] then [] else [LowerChar(s[0])] + Lower(s[1..])
  }

  /** `s.upper()` on ASCII letters. */
  function Upper(s: string): (r: string)
    ensures |r| == |s|
    ensures forall i :: 0 <= i < |s| ==> r[i] == UpperChar(s[i])
    ensures forall i :: 0 <= i < |r| ==> !IsLower(r[i])
  {
    if s == [] then [] else [UpperChar(s[0])] + Upper(s[1..])
  }

  /** `s` and `t` spell the same text, letter for letter, up to ASCII case. */
  predicate SameUpToCase(s: string, t: string) {
    |s| == |t| && forall i :: 0 <= i < |s| ==> LowerChar(s[i]) == LowerChar(t[i])
  }

  lemma LowerIgnoresCase(s: string, t: string)
    requires SameUpToCase(s, t)
    ensures Lower(s) == Lower(t)
  {
  }

  lemma UpperIsSameUpToCase(s: string)
    ensures SameUpToCase(s, Upper(s))
  {
  }

  lemma LowerConcat(a: string, b: string)
    ensures Lower(a + b) == Lower(a) + Lower(b)
  {
  }

  /** Text without upper-case letters is its own lower-case form. */
  lemma LowerOfLowerCase(s: string)
    requires forall i :: 0 <= i < |s| ==> !IsUpper(s[i])
    ensures Lower(s) == s
  {
  }

  // ---------------------------------------------------------------------------
  // Substring search: Python's `pat in s`
  // ---------------------------------------------------------------------------

  predicate StartsWith(s: string, prefix: string) {
    |prefix| <= |s| && s[..|prefix|] == prefix
  }

  /** The window of `s` that starts at `i` spells `pat`. */
  predicate OccursAt(s: string, pat: string, i: int) {
    0 <= i <= |s| - |pat| && s[i..i + |pat|] == pat
  }

  lemma OccursAtChar(s: string, pat: string, i: int, k: int)
    requires OccursAt(s, pat, i) && 0 <= k < |pat|
    ensures s[i + k] == pat[k]
  {
    assert s[i..i + |pat|][k] == s[i + k];
  }

  /** `pat in s`: some window of `s` spells `pat` (the empty pattern is in every string). */
  predicate Contains(s: string, pat: string)
    ensures pat == [] ==> Contains(s, pat)
    ensures Contains(s, pat) ==> |pat| <= |s|
  {
    assert pat == [] ==> OccursAt(s, pat, 0);
    exists i :: 0 <= i <= |s| - |pat| && OccursAt(s, pat, i)
  }

  lemma ContainsAt(s: string, pat: string, i: int)
    requires OccursAt(s, pat, i)
    ensures Contains(s, pat)
  {
  }

  /** A lower-case pattern found in `s` is found in `Lower(s)` at the same place. */
  lemma ContainsLower(s: string, pat: string)
    requires Contains(s, pat) && Lower(pat) == pat
    ensures Contains(Lower(s), pat)
  {
    var i :| 0 <= i <= |s| - |pat| && OccursAt(s, pat, i);
    forall k | 0 <= k < |pat|
      ensures Lower(s)[i + k] == pat[k]
    {
      OccursAtChar(s, pat, i, k);
      assert Lower(pat)[k] == LowerChar(pat[k]);
    }
    assert Lower(s)[i..i + |pat|] == pat;
    assert OccursAt(Lower(s), pat, i);
  }

  /** Each character of a pattern found in `s` is a character of `s`. */
  lemma ContainsEveryChar(s: string, pat: string, k: int)
    requires Contains(s, pat) && 0 <= k < |pat|
    ensures exists j :: 0 <= j < |s| && s[j] == pat[k]
  {
    var i :| 0 <= i <= |s| - |pat| && OccursAt(s, pat, i);
    OccursAtChar(s, pat, i, k);
  }

  /** A string that lacks one of the pattern's characters does not contain it. */
  lemma MissingCharExcludes(s: string, pat: string, k: int)
    requires 0 <= k < |pat| && pat[k] !in s
    ensures !Contains(s, pat)
  {
    if Contains(s, pat) {
      ContainsEveryChar(s, pat, k);
      assert false;
    }
  }

  /** A letter absent from `s` in both cases is absent from `Lower(s)`. */
  lemma LowerLacksLetter(s: string, c: char)
    requires IsLower(c) && c !in s && UpperChar(c) !in s
    ensures c !in Lower(s)
  {
  }

  /** A pattern without the character `c` is found in `a + [c] + b` exactly when
      it is found in `a` or in `b`: no occurrence can run across `c`. */
  lemma ContainsAroundSeparator(a: string, c: char, b: string, pat: string)
    requires c !in pat
    ensures Contains(a + [c] + b, pat) <==> Contains(a, pat) || Contains(b, pat)
  {
    var s := a + [c] + b;
    assert s[..|a|] == a && s[|a| + 1..] == b;
    if Contains(s, pat) {
      var i :| 0 <= i <= |s| - |pat| && OccursAt(s, pat, i);
      if i + |pat| <= |a| {
        assert a[i..i + |pat|] == s[..|a|][i..i + |pat|] == s[i..i + |pat|];
        assert OccursAt(a, pat, i);
      } else if i > |a| {
        var j := i - |a| - 1;
        assert b[j..j + |pat|] == s[|a| + 1..][j..j + |pat|] == s[i..i + |pat|];
        assert OccursAt(b, pat, j);
      } else {
        // the window would cover the separator, which `pat` does not hold
        OccursAtChar(s, pat, i, |a| - i);
        assert false;
      }
    }
    if Contains(a, pat) {
      var i :| 0 <= i <= |a| - |pat| && OccursAt(a, pat, i);
      assert s[i..i + |pat|] == s[..|a|][i..i + |pat|] == a[i..i + |pat|];
      assert OccursAt(s, pat, i);
    }
    if Contains(b, pat) {
      var j :| 0 <= j <= |b| - |pat| && OccursAt(b, pat, j);
      var i := j + |a| + 1;
      assert s[i..i + |pat|] == s[|a| + 1..][j..j + |pat|] == b[j..j + |pat|];
      assert OccursAt(s, pat, i);
    }
  }

  // ---------------------------------------------------------------------------
  // `sep.join(parts)`
  // ---------------------------------------------------------------------------

  function TotalLength(parts: seq<string>): nat {
    if parts == [] then 0 else |parts[0]| + TotalLength(parts[1..])
  }

  /** `sep.join(parts)`: the parts in order, with `sep` between neighbours. */
  function Join(sep: string, parts: seq<string>): (r: string)
    ensures parts == [] ==> r == []
    ensures parts != [] ==> |r| == TotalLength(parts) + (|parts| - 1) * |sep|
    ensures parts != [] ==> StartsWith(r, parts[0])
    decreases |parts|
  {
    if |parts| == 0 then []
    else if |parts| == 1 then parts[0]
    else parts[0] + sep + Join(sep, parts[1..])
  }

  /** Some part contains `pat`. */
  predicate SomePartContains(parts: seq<string>, pat: string) {
    exists i :: 0 <= i < |parts| && Contains(parts[i], pat)
  }

  /** A non-empty pattern that does not hold the one-character separator is
      found in the joined text exactly when it is found in one of the parts. */
  lemma {:induction false} ContainsJoin(sep: string, parts: seq<string>, pat: string)
    requires |sep| == 1 && sep[0] !in pat && pat != []
    ensures Contains(Join(sep, parts), pat) <==> SomePartContains(parts, pat)
    decreases |parts|
  {
    if |parts| == 0 {
    } else if |parts| == 1 {
      if Contains(parts[0], pat) {
        assert SomePartContains(parts, pat) by { assert Contains(parts[0], pat); }
      }
    } else {
      var rest := parts[1..];
      ContainsJoin(sep, rest, pat);
      assert Join(sep, parts) == parts[0] + [sep[0]] + Join(sep, rest) by {
        assert sep == [sep[0]];
      }
      ContainsAroundSeparator(parts[0], sep[0], Join(sep, rest), pat);
      if SomePartContains(rest, pat) {
        var i :| 0 <= i < |rest| && Contains(rest[i], pat);
        assert rest[i] == parts[i + 1];
      }
      if SomePartContains(parts, pat) {
        var i :| 0 <= i < |parts| && Contains(parts[i], pat);
        if i > 0 {
          assert parts[i] == rest[i - 1];
        }
      }
    }
  }

  /** Every part lower-cased. */
  function LowerAll(parts: seq<string>): (r: seq<string>)
    ensures |r| == |parts|
    ensures forall i :: 0 <= i < |parts| ==> r[i] == Lower(parts[i])
  {
    seq(|parts|, i requires 0 <= i < |parts| => Lower(parts[i]))
  }

  /** Lower-casing the joined text is joining the lower-cased parts. */
  lemma {:induction false} LowerJoin(sep: string, parts: seq<string>)
    ensures Lower(Join(sep, parts)) == Join(Lower(sep), LowerAll(parts))
    decreases |parts|
  {
    if |parts| > 1 {
      var rest := parts[1..];
      LowerJoin(sep, rest);
      assert LowerAll(parts)[1..] == LowerAll(rest);
      calc {
        Lower(Join(sep, parts));
        Lower(parts[0] + sep + Join(sep, rest));
        { LowerConcat(parts[0] + sep, Join(sep, rest)); LowerConcat(parts[0], sep); }
        Lower(parts[0]) + Lower(sep) + Lower(Join(sep, rest));
        Lower(parts[0]) + Lower(sep) + Join(Lower(sep), LowerAll(rest));
        Join(Lower(sep), LowerAll(parts));
      }
    }
  }

  // ---------------------------------------------------------------------------
  // `str(n)` for integers
  // ---------------------------------------------------------------------------

  predicate IsDigit(c: char) { '0' <= c <= '9' }

  predicate AllDigits(s: string) { forall i :: 0 <= i < |s| ==> IsDigit(s[i]) }

  function DigitChar(d: nat): (c: char)
    requires d < 10
    ensures IsDigit(c)
  {
    ('0' as int + d) as char
  }

  /** Decimal digits of `n`, most significant first, without leading zeros. */
  function NatToDecimal(n: nat): (r: string)
    ensures r != [] && AllDigits(r)
    ensures r[0] == '0' ==> n == 0
    decreases n
  {
    if n < 10 then [DigitChar(n)] else NatToDecimal(n / 10) + [DigitChar(n % 10)]
  }

  /** The number a string of decimal digits denotes. */
  function DecimalValue(s: string): nat
    requires AllDigits(s)
  {
    if s == [] then 0 else 10 * DecimalValue(s[..|s| - 1]) + (s[|s| - 1] as int - '0' as int)
  }

  /** Reading back the digits of `n` gives `n`. */
  lemma {:induction false} DecimalRoundTrip(n: nat)
    ensures DecimalValue(NatToDecimal(n)) == n
    decreases n
  {
    if n >= 10 {
      DecimalRoundTrip(n / 10);
      var s := NatToDecimal(n / 10);
      assert (s + [DigitChar(n % 10)])[..|s|] == s;
    }
  }

  /** `str(i)`: an optional minus sign, then the digits of `|i|`. */
  function IntToDecimal(i: int): (r: string)
    ensures r != []
    ensures forall k :: 0 <= k < |r| ==> IsDigit(r[k]) || r[k] == '-'
    ensures r[0] == '-' <==> i < 0
  {
    if i < 0 then "-" + NatToDecimal(-i) else NatToDecimal(i)
  }

  /** `int(s)` for the strings `IntToDecimal` produces. */
  function ParseDecimal(s: string): int
    requires s != [] && (if s[0] == '-' then AllDigits(s[1..]) else AllDigits(s))
  {
    if s[0] == '-' then 0 - DecimalValue(s[1..]) as int else DecimalValue(s)
  }

  /** `int(str(i)) == i`. */
  lemma IntDecimalRoundTrip(i: int)
    ensures var s := IntToDecimal(i);
            s != [] && (if s[0] == '-' then AllDigits(s[1..]) else AllDigits(s)) && ParseDecimal(s) == i
  {
    if i < 0 {
      DecimalRoundTrip(-i);
      assert IntToDecimal(i)[1..] == NatToDecimal(-i);
    } else {
      DecimalRoundTrip(i);
    }
  }
}
